=== FILE: README.md ===
# Film scraper core, modelled in Dafny

This project models the extraction and reconciliation logic of the film
scraper's `SimpleFilmScraper` class (`src/src/src/scraper.ts`). It covers three
parts.

- **Row normaliser.** The source writes it three times, once per source page
  (American films of 2023, American films of 2022, British films of 2023). Here
  it is one function, `Extract.NormaliseRow`, parameterised by a `Job`. A `Job`
  records the page URL, the year and country stamped on every film, the minimum
  number of `td` cells a row needs, whether the director heuristic runs, whether
  the job swallows its own failures, and the error message the orchestrator
  records for it.
- **Orchestrator.** `scrapeFilms` is modelled by `Scraper.ScrapeFilms`, with
  `Scraper.ScrapeAll` for an arbitrary job list. It runs the three jobs in
  order. A job that throws adds no film and exactly one error string. It then
  assembles the `ScrapingResult`.
- **Keep-first de-duplication.** `filter` / `findIndex` on `(title, year)` is
  modelled by `Deduplication.Dedup`.

## Modules

| file | module | contents |
|---|---|---|
| `wrappers.dfy` | `Wrappers` | `Option` and `Result` |
| `text.dfy` | `Text` | JavaScript string pieces the normaliser uses: `trim` and its whitespace set, `/[^\w\s]/gi`, UTF-16 `length` |
| `sequences.dfy` | `Sequences` | regrouping a concatenation, shared by the list-building proofs |
| `types.dfy` | `Types` | `Film` and `ScrapingResult` from `src/types.ts` |
| `extract.dfy` | `Extract` | cells, rows, tables and pages as cheerio hands them over; `Job`; the row normaliser; one job's run |
| `dedup.dfy` | `Deduplication` | `findIndex` and the keep-first `filter` |
| `scraper.dfy` | `Scraper` | the three jobs, error collection, the top-level `catch` and the result |

## Modelling notes

- **String length.** JavaScript strings are sequences of UTF-16 code units.
  The `length > 2` title test and the `length < 100` director test therefore
  count a character outside the Basic Multilingual Plane twice (`Text.Utf16Length`).
- **Whitespace.** `trim()` and the regex class `\s` both use the ECMAScript
  set: WhiteSpace plus LineTerminator (`Text.IsSpace`).
- **Word characters.** Without the `u` flag, `\w` is ASCII `[A-Za-z0-9_]`. The
  `i` flag does not widen it (`Text.IsWordChar`).
- **Out-of-range cells.** `cells.eq(i)` past the end is an empty selection,
  with empty text and no link (`Extract.CellAt`).
- **Falsy strings.** An empty link text is falsy, so the title candidate falls
  back to the cell text. An empty `href` is falsy, so the film has no URL.
- **Field names.** The Dafny fields `castMembers`, `releaseDate`,
  `wikipediaUrl` and `totalScraped` stand for the source's `cast_members`,
  `release_date`, `wikipedia_url` and `total_scraped` (`src/types.ts`); the
  other fields keep their names.
- **Fetching.** `fetchPage` is a parameter `fetch: string -> Result<Page, ()>`,
  applied to each job's URL. A `Page` is the parsed `table.wikitable` elements.
- **The British job** catches its own failures (lines 105-131). When its fetch
  fails it returns an empty list and records no error.
- **The outer `catch` (lines 187-195).** Every job call sits inside its own
  `try`, so the outer `catch` can fire only before the first job, between jobs,
  or after the last one. The model leaves its cause unspecified. The exception is an input:
  `Escape(afterJobs, thrown)` says how many jobs completed and what value was
  thrown. `Scraper.ThrownMessage` turns the value into the recorded message.
- **Empty titles.** The length test at line 42 runs before punctuation is
  stripped at line 44. A candidate such as `"!?!"` passes the test and is
  stored with an empty title (`Text.NormaliseTitleCanBeEmpty`).
- **Director text.** `secondCell && …` at line 55 rejects `""`, so the
  director is set only when the trimmed second-cell text is non-empty and
  shorter than 100 code units.

## Model

| member | source | states |
|---|---|---|
| `Text.LeadingSpaces` | src/src/src/scraper.ts:40 | The count of leading characters `trim` removes: every one of them is whitespace and the next character, if any, is not |
| `Text.TrailingSpaces` | src/src/src/scraper.ts:40 | The count of trailing characters `trim` removes: every one of them is whitespace and the character before them, if any, is not |
| `Text.TrimStart` | src/src/src/scraper.ts:40 | The leading-whitespace removal of `trim` drops only whitespace and leaves a suffix that is empty or does not start with whitespace |
| `Text.TrimEnd` | src/src/src/scraper.ts:40 | The trailing-whitespace removal of `trim` drops only whitespace and leaves a prefix that is empty or does not end with whitespace |
| `Text.Trim` | src/src/src/scraper.ts:40 | `trim()` leaves no whitespace at either end and never lengthens its input; the result is empty exactly when the input is all whitespace |
| `Text.TrimIsSlice` | src/src/src/scraper.ts:40 | The trimmed string is the contiguous slice of the input that starts right after its leading whitespace |
| `Text.TrimRemovesOnlySpace` | src/src/src/scraper.ts:40 | Everything outside the kept slice, before and after it, is whitespace |
| `Text.TrimKeepsTitleChars` | src/src/src/scraper.ts:44 | Trimming a string made of word and whitespace characters yields such a string again, so the final `trim()` of the title keeps it clean |
| `Text.TrimOfTrimmed` | src/src/src/scraper.ts:40 | Trimming a string that has no whitespace at either end leaves it unchanged |
| `Text.TrimIdempotent` | src/src/src/scraper.ts:40 | Trimming twice is the same as trimming once |
| `Text.Utf16Length` | src/src/src/scraper.ts:42 | `length` counts UTF-16 code units: a single character counts 1 inside the Basic Multilingual Plane and 2 outside it; a string counts between its character count and twice that, and exactly its character count precisely when no character lies outside the Basic Multilingual Plane |
| `Text.Utf16LengthAppend` | src/src/src/scraper.ts:42 | `length` adds up over concatenation, so with the single-character values it is the per-character sum |
| `Text.StripPunctuation` | src/src/src/scraper.ts:44 | `replace(/[^\w\s]/gi, '')` never lengthens a string, keeps only word and whitespace characters, and leaves unchanged a string made only of those |
| `Text.StripPunctuationDeletes` | src/src/src/scraper.ts:44 | The replacement only deletes: each word or whitespace character occurs in the result exactly as often as in the input, and every other character is gone |
| `Text.StripPunctuationAppend` | src/src/src/scraper.ts:44 | The global replace works character by character: stripping a concatenation concatenates the stripped parts |
| `Text.StripPunctuationExample` | src/src/src/scraper.ts:44 | `"Oppenheimer: Part 1!"` loses its colon and exclamation mark and keeps its spaces |
| `Text.NormaliseTitle` | src/src/src/scraper.ts:44 | The stored title holds only word and whitespace characters, starts and ends with a word character when non-empty, and is no longer than the candidate |
| `Text.NormaliseCleanTitle` | src/src/src/scraper.ts:44 | A title that is already clean is a fixed point of normalisation |
| `Text.NormaliseTitleIdempotent` | src/src/src/scraper.ts:44 | Normalising a stored title again leaves it unchanged |
| `Text.NormaliseTrimmedStrip` | src/src/src/scraper.ts:44 | When stripping leaves no whitespace at either end, the final `trim()` changes nothing |
| `Text.NormaliseTitleExample` | src/src/src/scraper.ts:44 | `"Oppenheimer: Part 1!"` is stored as `"Oppenheimer Part 1"` |
| `Text.NormaliseTitleCanBeEmpty` | src/src/src/scraper.ts:42-44 | `"!?!"` passes the `length > 2` test and is stored as the empty title |
| `Extract.CellAt` | src/src/src/scraper.ts:38 | `cells.eq(i)` is the i-th cell when it exists and an empty selection, with no text and no link, otherwise |
| `Extract.TitleCandidate` | src/src/src/scraper.ts:38-40 | The candidate is the trimmed text of the cell's first link when that is non-empty, and the trimmed cell text otherwise; it has no whitespace at either end |
| `Extract.PlainTitleCandidate` | src/src/src/scraper.ts:38-40 | A first cell with no link and no surrounding whitespace offers its own text as the title candidate |
| `Extract.TitleUrl` | src/src/src/scraper.ts:47-48 | The URL is present exactly when the first link has a non-empty `href`, and is then `https://en.wikipedia.org` followed by the `href` |
| `Extract.DirectorCandidate` | src/src/src/scraper.ts:52-57 | The director is the trimmed second-cell text when a second cell exists and the text is non-empty and shorter than 100 code units; otherwise there is none |
| `Extract.NormaliseRow` | src/src/src/scraper.ts:36-60 | A row yields a film exactly when it has the job's minimum cell count and its title candidate is longer than 2 code units. The film carries the job's year and country, the normalised candidate as title, and the link URL. It carries the director only in a director-taking job, and no cast, genre or release date |
| `Extract.RowFilms` | src/src/src/scraper.ts:111-126 | A row contributes at most one film, stamped with the job's metadata |
| `Extract.ExtractTable` | src/src/src/scraper.ts:110-127 | A table yields at most one film per row, each stamped with the job's metadata, and an empty table yields none |
| `Extract.ExtractPage` | src/src/src/scraper.ts:109-128 | Every film of a page carries the job's metadata, and a page with no `table.wikitable` yields no film |
| `Extract.ExtractTableAppend` | src/src/src/scraper.ts:77-94 | Rows are processed in order: two consecutive row runs yield their films one after the other |
| `Extract.ExtractPageAppend` | src/src/src/scraper.ts:76-95 | Tables are processed in document order: two consecutive table runs yield their films one after the other |
| `Extract.ExtractSingleRow` | src/src/src/scraper.ts:34-64 | A page holding one table with one row yields exactly that row's film, if any |
| `Extract.TwoCharacterTitleRejected` | src/src/src/scraper.ts:42 | A row whose title cell reads `"AB"` yields no film in any job |
| `Extract.ThreeCharacterTitleAccepted` | src/src/src/scraper.ts:112-117 | A row whose title cell reads `"ABC"` and that has the job's minimum cell count yields a film |
| `Extract.RunJob` | src/src/src/scraper.ts:101-134 | A job fails exactly when its fetch fails and it does not catch its own failures; a catching job returns no films instead; after a successful fetch the result is the page's films |
| `Deduplication.FindIndexFrom` | src/src/src/scraper.ts:175 | The search from a start index returns the first index at or after it holding the key, or -1 exactly when none does |
| `Deduplication.FindIndex` | src/src/src/scraper.ts:175 | `findIndex` returns -1 exactly when the key does not occur, and otherwise the first index holding the key |
| `Deduplication.FirstIndexIffNoEarlierDuplicate` | src/src/src/scraper.ts:174-175 | The `filter` test `index === findIndex(...)` holds exactly when no earlier film shares the key |
| `Deduplication.KeepFirstFrom` | src/src/src/scraper.ts:174-176 | The `filter` pass from an index never yields more films than it scans |
| `Deduplication.KeepFirstSelects` | src/src/src/scraper.ts:174-176 | Every film the pass keeps is the first film of the list with its key |
| `Deduplication.KeepFirstOrdered` | src/src/src/scraper.ts:174-176 | Kept films appear in the order of their keys' first occurrences |
| `Deduplication.KeepFirstComplete` | src/src/src/scraper.ts:174-176 | Every first occurrence of a key in the scanned range is kept |
| `Deduplication.Dedup` | src/src/src/scraper.ts:174-176 | The de-duplicated list has no repeated key and the same keys as the input. Each entry is the input's first film with that key, entries keep first-occurrence order, and every first occurrence is kept |
| `Deduplication.KeysSnoc` | src/src/src/scraper.ts:175 | Appending a film adds exactly its `(title, year)` key |
| `Deduplication.KeysCount` | src/src/src/scraper.ts:174-176 | A list has at most as many distinct keys as films |
| `Deduplication.UniqueKeysCount` | src/src/src/scraper.ts:174-176 | A list without repeated keys has exactly as many keys as films |
| `Deduplication.DedupLength` | src/src/src/scraper.ts:174-184 | The de-duplicated count is the number of distinct keys, never more than the number of films |
| `Deduplication.KeepFirstOfUnique` | src/src/src/scraper.ts:174-176 | On a list without repeated keys the pass keeps every film |
| `Deduplication.DedupIdempotent` | src/src/src/scraper.ts:174-176 | De-duplicating twice is the same as de-duplicating once |
| `Deduplication.DedupKeepsFirst` | src/src/src/scraper.ts:174-176 | Of two films with the same key, the earlier survives, it is the only survivor with that key, and a different later one is dropped |
| `Deduplication.DedupPair` | src/src/src/scraper.ts:174-176 | Two films with the same key de-duplicate to the first |
| `Scraper.American2023` | src/src/src/scraper.ts:28-57 | The 2023 American job: page `List_of_American_films_of_2023`, year 2023, country `United States`, at least two cells, director taken from the second cell, failures not caught inside the job, error message `Failed to scrape American films 2023` (line 151) |
| `Scraper.American2022` | src/src/src/scraper.ts:71-88 | The 2022 American job: page `List_of_American_films_of_2022`, year 2022, country `United States`, at least two cells, no director, failures not caught inside the job, error message `Failed to scrape American films 2022` (line 160) |
| `Scraper.British2023` | src/src/src/scraper.ts:102-131 | The British job: page `List_of_British_films_of_2023`, year 2023, country `United Kingdom`, one cell suffices, no director, failures caught inside the job (the `try` at lines 105-131), error message `Failed to scrape British films 2023` (line 169, reached only if a console call in `scrapeBritishFilms` throws, at lines 130 or 133) |
| `Scraper.Jobs` | src/src/src/scraper.ts:146-171 | The three jobs in the order `scrapeFilms` runs them: American 2023, American 2022, British 2023 |
| `Scraper.ThrownMessage` | src/src/src/scraper.ts:192 | An `Error` contributes its message, and any other thrown value contributes `"Unknown error"` |
| `Scraper.JobFilms` | src/src/src/scraper.ts:147-149 | The films part of a job's contribution: none when its fetch failed, the page's extracted films when it succeeded, each carrying the job's metadata |
| `Scraper.Contribution` | src/src/src/scraper.ts:147-153 | A job adds no error exactly when it returns. When it throws, it adds exactly its message and no films. Only a failed fetch in a job that does not catch its own failures adds an error |
| `Scraper.Accumulate` | src/src/src/scraper.ts:146-171 | Running jobs records at most one error per job |
| `Scraper.AccumulateProvenance` | src/src/src/scraper.ts:146-171 | Every accumulated film carries the metadata of one of the jobs, and every error is the message of a job that does not catch its failures |
| `Scraper.AccumulateAppend` | src/src/src/scraper.ts:146-171 | Later jobs still run: running two job lists in sequence accumulates the first's films and errors followed by the second's |
| `Scraper.AccumulateOne` | src/src/src/scraper.ts:147-153 | One job on its own accumulates exactly its contribution |
| `Scraper.JobFailureIsolated` | src/src/src/scraper.ts:156-162 | A failing job between others adds exactly its error message and no film, and leaves the others' films and errors as they were |
| `Scraper.JobSuccessAppended` | src/src/src/scraper.ts:156-158 | A succeeding job between others appends its films in place and adds no error |
| `Scraper.AccumulatePair` | src/src/src/scraper.ts:146-162 | Two jobs accumulate the first job's contribution followed by the second's |
| `Scraper.AccumulateThree` | src/src/src/scraper.ts:146-171 | Three jobs accumulate their contributions in order |
| `Scraper.AccumulateThreeFilms` | src/src/src/scraper.ts:146-171 | The films of three jobs are each job's films, in job order |
| `Scraper.AccumulateThreeErrors` | src/src/src/scraper.ts:146-171 | The errors of three jobs are each job's contributed errors, in job order |
| `Scraper.AccumulateJobs` | src/src/src/scraper.ts:146-171 | The three jobs accumulate their films in job order, plus the message of each American job whose fetch failed. The British job never records an error |
| `Scraper.ScrapeAll` | src/src/src/scraper.ts:173-194 | Without an escape, the result succeeds with the de-duplicated films, the job errors and their count. The films are exactly `Dedup` of the films the jobs accumulated. With an escape, it fails and returns what some prefix of the jobs accumulated, its films unchanged and its errors followed by the escaped message. `total_scraped` is always the number of films returned |
| `Scraper.ScrapeFilms` | src/src/src/scraper.ts:138-196 | `scrapeFilms` succeeds exactly when nothing escapes. Its films then have no repeated key, its only possible errors are the two American messages, and `total_scraped` counts the films |
| `Scraper.ScrapeFilmsOutcome` | src/src/src/scraper.ts:173-185 | An uninterrupted run succeeds whatever the network does. It returns the de-duplicated films of the jobs that fetched, one error per failed American job, and their count |
| `Scraper.ScrapeAllCount` | src/src/src/scraper.ts:184 | `total_scraped` of an uninterrupted run is the number of distinct `(title, year)` keys among all films produced |
| `Scraper.PrefixAccumulates` | src/src/src/scraper.ts:146-171 | The jobs completed so far have accumulated a prefix of a full run's films and a prefix of its errors |
| `Scraper.EscapeKeepsProgress` | src/src/src/scraper.ts:187-194 | After an escape, the films are a prefix of what a full run accumulates, not de-duplicated. The errors before the escaped message are a prefix of a full run's errors, and `total_scraped` is the film count |
| `Scraper.EscapeBeforeFirstJob` | src/src/src/scraper.ts:142-144 | An exception thrown inside the outer `try` before the first job, such as by the opening log call at line 144, gives an unsuccessful result with no films, the thrown message as the only error, and a count of 0 |
| `Scraper.KeepFirstAcrossJobs` | src/src/src/scraper.ts:146-176 | When the American 2023 and British pages each yield one film with the same title, and the American 2022 fetch fails, only the American 2023 film (the earlier one) survives, and the only error is the 2022 message |

## Left out

- `fetchPage` and `delay`: HTTP requests through axios, the request headers and timeout, and the one-second pause. The fetch outcome is a parameter of each job.
- cheerio's HTML parsing and the CSS selectors `table.wikitable`, `tr`, `td` and `a`. A page is given already split into tables, rows and cells, each cell with its text and its first link.
- `async`/`await`: the jobs run strictly one after another, which is how the model runs them.
- All `console.log` and `console.error` output. A console call that throws outside every job's own `try` is covered by `Escape`; one that throws inside a job is not.
- `Scraper.Contribution`: a console call that throws inside a job is not modelled. For the British job it would record the line-169 message (a throw at line 130 or 133 escapes `scrapeBritishFilms`), which the model never records; for an American job it would record that job's message even after a successful fetch.
- `src/database.ts`: storing films in PostgreSQL. This is persistence I/O.
- `src/index.ts` and `scripts/scrape.ts`: command-line entry points that connect to the database, print and exit.
- `src/scraper.ts`: a placeholder class with no logic.
- `Extract.RunJob`: the only failure modelled is the fetch. In the source, cheerio can also throw part-way through a page. An American job would then record its error as modelled, but the British job would return the films pushed before the exception, and that partial list is not modelled.
- `Scraper.ScrapeAll`: the model does not say what raises the outer exception, only how many jobs completed before it (any count from the number of jobs up means after the last job). The result's shape is stated, not the cause.

=== FILE: dedup.dfy ===
/** Keep-first de-duplication of films by `(title, year)`: a film is kept
    exactly when its position is the first position of any film with the
    same title and year, so the earliest film with each key survives. */
module Deduplication {
  import opened Wrappers
  import opened Types

  /** The identity of a film for de-duplication. */
  type Key = (string, Option<int>)

  function KeyOf(f: Film): Key {
    (f.title, f.year)
  }

  /** The keys occurring in a film list. */
  ghost function Keys(s: seq<Film>): set<Key> {
    set i | 0 <= i < |s| :: KeyOf(s[i])
  }

  /** No two films of the list share a key. */
  ghost predicate UniqueKeys(s: seq<Film>) {
    forall i, j :: 0 <= i < j < |s| ==> KeyOf(s[i]) != KeyOf(s[j])
  }

  /** `findIndex` started at `from`: the first index at or after `from` whose
      film has key `k`, or -1 when there is none. */
  function FindIndexFrom(s: seq<Film>, k: Key, from: nat): (r: int)
    requires from <= |s|
    ensures r == -1 || from <= r < |s|
    ensures r == -1 <==> forall j :: from <= j < |s| ==> KeyOf(s[j]) != k
    ensures r != -1 ==> KeyOf(s[r]) == k && forall j :: from <= j < r ==> KeyOf(s[j]) != k
    decreases |s| - from
  {
    if from == |s| then -1
    else if KeyOf(s[from]) == k then from
    else FindIndexFrom(s, k, from + 1)
  }

  /** `self.findIndex(...)` over the whole list. */
  function FindIndex(s: seq<Film>, k: Key): (r: int)
    ensures r == -1 <==> k !in Keys(s)
    ensures r != -1 ==> 0 <= r < |s| && KeyOf(s[r]) == k
    ensures r != -1 ==> forall j :: 0 <= j < r ==> KeyOf(s[j]) != k
  {
    var r := FindIndexFrom(s, k, 0);
    assert r == -1 ==> k !in Keys(s);
    assert r != -1 ==> KeyOf(s[r]) in Keys(s);
    r
  }

  /** The `filter` callback: index `i` survives when it is the first index
      carrying its key, that is, when no earlier film shares its key. */
  lemma FirstIndexIffNoEarlierDuplicate(s: seq<Film>, i: nat)
    requires i < |s|
    ensures FindIndex(s, KeyOf(s[i])) == i <==> forall j :: 0 <= j < i ==> KeyOf(s[j]) != KeyOf(s[i])
  {
  }

  /** The `filter` pass over indices `from` to the end of the list. */
  function KeepFirstFrom(s: seq<Film>, from: nat): (r: seq<Film>)
    requires from <= |s|
    ensures |r| <= |s| - from
    decreases |s| - from
  {
    if from == |s| then []
    else
      var rest := KeepFirstFrom(s, from + 1);
      if FindIndex(s, KeyOf(s[from])) == from then [s[from]] + rest else rest
  }

  /** Every survivor of the pass from `from` is the first film carrying its
      key, and that first occurrence lies at or after `from`. */
  lemma {:induction false} KeepFirstSelects(s: seq<Film>, from: nat, r: seq<Film>)
    requires from <= |s| && r == KeepFirstFrom(s, from)
    ensures forall j :: 0 <= j < |r| ==> from <= FindIndex(s, KeyOf(r[j])) && r[j] == s[FindIndex(s, KeyOf(r[j]))]
    decreases |s| - from
  {
    if from < |s| {
      var rest := KeepFirstFrom(s, from + 1);
      KeepFirstSelects(s, from + 1, rest);
      if FindIndex(s, KeyOf(s[from])) == from {
        forall j | 0 <= j < |r| ensures from <= FindIndex(s, KeyOf(r[j])) && r[j] == s[FindIndex(s, KeyOf(r[j]))] {
          if j > 0 {
            assert r[j] == rest[j - 1];
          }
        }
      }
    }
  }

  /** Survivors appear in the order of their keys' first occurrences. */
  lemma {:induction false} KeepFirstOrdered(s: seq<Film>, from: nat, r: seq<Film>)
    requires from <= |s| && r == KeepFirstFrom(s, from)
    ensures forall j1, j2 :: 0 <= j1 < j2 < |r| ==> FindIndex(s, KeyOf(r[j1])) < FindIndex(s, KeyOf(r[j2]))
    decreases |s| - from
  {
    if from < |s| {
      var rest := KeepFirstFrom(s, from + 1);
      KeepFirstSelects(s, from + 1, rest);
      KeepFirstOrdered(s, from + 1, rest);
      if FindIndex(s, KeyOf(s[from])) == from {
        forall j1, j2 | 0 <= j1 < j2 < |r| ensures FindIndex(s, KeyOf(r[j1])) < FindIndex(s, KeyOf(r[j2])) {
          assert r[j2] == rest[j2 - 1];
          if j1 > 0 {
            assert r[j1] == rest[j1 - 1];
          }
        }
      }
    }
  }

  /** Every first occurrence at or after `from` survives the pass. */
  lemma {:induction false} KeepFirstComplete(s: seq<Film>, from: nat)
    requires from <= |s|
    ensures forall i :: from <= i < |s| && FindIndex(s, KeyOf(s[i])) == i ==> s[i] in KeepFirstFrom(s, from)
    decreases |s| - from
  {
    if from < |s| {
      KeepFirstComplete(s, from + 1);
    }
  }

  /** The de-duplicated film list: no key repeats, no key is lost, every
      survivor is the first film carrying its key, survivors appear in the
      order of those first occurrences (so the result is a subsequence of the
      input), and every first occurrence survives. */
  function Dedup(s: seq<Film>): (r: seq<Film>)
    ensures UniqueKeys(r)
    ensures Keys(r) == Keys(s)
    ensures forall j :: 0 <= j < |r| ==> 0 <= FindIndex(s, KeyOf(r[j])) && r[j] == s[FindIndex(s, KeyOf(r[j]))]
    ensures forall j1, j2 :: 0 <= j1 < j2 < |r| ==> FindIndex(s, KeyOf(r[j1])) < FindIndex(s, KeyOf(r[j2]))
    ensures forall i :: 0 <= i < |s| && FindIndex(s, KeyOf(s[i])) == i ==> s[i] in r
  {
    var r := KeepFirstFrom(s, 0);
    KeepFirstSelects(s, 0, r);
    KeepFirstOrdered(s, 0, r);
    KeepFirstComplete(s, 0);
    assert UniqueKeys(r) by {
      forall i, j | 0 <= i < j < |r| ensures KeyOf(r[i]) != KeyOf(r[j]) {
        assert FindIndex(s, KeyOf(r[i])) < FindIndex(s, KeyOf(r[j]));
      }
    }
    assert Keys(s) <= Keys(r) by {
      forall k | k in Keys(s) ensures k in Keys(r) {
        var f := FindIndex(s, k);
        assert s[f] in r;
      }
    }
    r
  }

  /** Appending one film adds exactly its key. */
  lemma KeysSnoc(s: seq<Film>, f: Film)
    ensures Keys(s + [f]) == Keys(s) + {KeyOf(f)}
  {
    var t := s + [f];
    assert forall i :: 0 <= i < |s| ==> t[i] == s[i];
    assert t[|s|] == f;
  }

  /** A list has at most as many keys as films. */
  lemma {:induction false} KeysCount(s: seq<Film>)
    ensures |Keys(s)| <= |s|
    decreases |s|
  {
    if s != [] {
      var p := s[..|s| - 1];
      assert s == p + [s[|s| - 1]];
      KeysSnoc(p, s[|s| - 1]);
      KeysCount(p);
    }
  }

  /** A list without repeated keys has exactly as many keys as films. */
  lemma {:induction false} UniqueKeysCount(s: seq<Film>)
    requires UniqueKeys(s)
    ensures |Keys(s)| == |s|
    decreases |s|
  {
    if s != [] {
      var p := s[..|s| - 1];
      var f := s[|s| - 1];
      assert s == p + [f];
      KeysSnoc(p, f);
      assert KeyOf(f) !in Keys(p) by {
        forall i | 0 <= i < |p| ensures KeyOf(p[i]) != KeyOf(f) {
          assert p[i] == s[i];
        }
      }
      UniqueKeysCount(p);
    }
  }

  /** The de-duplicated list has one film per distinct key, so it is never
      longer than the input. */
  lemma DedupLength(s: seq<Film>)
    ensures |Dedup(s)| == |Keys(s)| <= |s|
  {
    UniqueKeysCount(Dedup(s));
    KeysCount(s);
  }

  /** On a list without repeated keys the `filter` pass keeps everything. */
  lemma {:induction false} KeepFirstOfUnique(u: seq<Film>, from: nat)
    requires UniqueKeys(u) && from <= |u|
    ensures KeepFirstFrom(u, from) == u[from..]
    decreases |u| - from
  {
    if from < |u| {
      var k := FindIndex(u, KeyOf(u[from]));
      assert k == from;
      KeepFirstOfUnique(u, from + 1);
      assert u[from..] == [u[from]] + u[from + 1..];
    }
  }

  /** De-duplicating twice is the same as de-duplicating once. */
  lemma DedupIdempotent(s: seq<Film>)
    ensures Dedup(Dedup(s)) == Dedup(s)
  {
    KeepFirstOfUnique(Dedup(s), 0);
    assert Dedup(s)[0..] == Dedup(s);
  }

  /** Keep-first: when film `i` is the first with its key and film `j` comes
      later with the same key, film `i` survives and is the only survivor
      with that key, so a later film that differs from it is dropped. */
  lemma DedupKeepsFirst(s: seq<Film>, i: nat, j: nat)
    requires i < j < |s| && KeyOf(s[i]) == KeyOf(s[j])
    requires forall k :: 0 <= k < i ==> KeyOf(s[k]) != KeyOf(s[i])
    ensures s[i] in Dedup(s)
    ensures forall f :: f in Dedup(s) && KeyOf(f) == KeyOf(s[i]) ==> f == s[i]
    ensures s[j] != s[i] ==> s[j] !in Dedup(s)
  {
    var r := Dedup(s);
    assert FindIndex(s, KeyOf(s[i])) == i;
    forall f | f in r && KeyOf(f) == KeyOf(s[i]) ensures f == s[i] {
      var m :| 0 <= m < |r| && r[m] == f;
      assert r[m] == s[FindIndex(s, KeyOf(r[m]))];
    }
  }

  /** Two films with the same key de-duplicate to the first of them. */
  lemma DedupPair(first: Film, second: Film)
    requires KeyOf(first) == KeyOf(second)
    ensures Dedup([first, second]) == [first]
  {
    var s := [first, second];
    var r := Dedup(s);
    DedupLength(s);
    assert Keys(s) == {KeyOf(first)};
    assert r[0] == s[FindIndex(s, KeyOf(r[0]))];
  }
}

=== FILE: extract.dfy ===
/** Turning the `table.wikitable` rows of a fetched page into films, and one
    source job (fetch, extract, optionally swallow the failure). The HTML
    parser is abstracted: a page is its sequence of tables, a table its rows,
    a row its `td` cells. */
module Extract {
  import opened Wrappers
  import opened Text
  import opened Types
  import opened Sequences

  /** The first `a` element inside a cell: its text and its `href` attribute. */
  datatype Link = Link(text: string, href: Option<string>)

  /** One `td` cell: its whole text and its first link, if any. */
  datatype Cell = Cell(text: string, firstLink: Option<Link>)

  /** The `td` cells of one `tr`, in document order. */
  type Row = seq<Cell>

  /** The rows of one `table.wikitable`. */
  type Table = seq<Row>

  /** Every `table.wikitable` of one page, in document order. */
  type Page = seq<Table>

  /** Prefix that turns a link's site-relative `href` into an absolute URL. */
  const WikipediaOrigin: string := "https://en.wikipedia.org"

  /** A director candidate must be strictly shorter than this (UTF-16 units). */
  const DirectorLengthLimit: nat := 100

  /** A title candidate must be strictly longer than this (UTF-16 units). */
  const MinTitleLength: nat := 2

  /** One source job: the page it fetches, the metadata it stamps on every film,
      the minimum number of cells a row needs, whether it reads a director from
      the second cell, whether it swallows its own failure, and the error
      message the orchestrator records when it fails. */
  datatype Job = Job(
    url: string,
    year: int,
    country: string,
    minCells: nat,
    takesDirector: bool,
    catchesFailure: bool,
    errorMessage: string
  )

  /** `cells.eq(i)`: the i-th cell, or an empty selection (no text, no link)
      when the row is shorter. */
  function CellAt(row: Row, i: nat): (c: Cell)
    ensures i < |row| ==> c == row[i]
    ensures i >= |row| ==> c.text == [] && c.firstLink.None?
  {
    if i < |row| then row[i] else Cell([], None)
  }

  /** `titleLink.text().trim() || titleCell.text().trim()`: the trimmed link
      text, or the trimmed cell text when the link is missing or blank. */
  function TitleCandidate(cell: Cell): (r: string)
    ensures IsTrimmed(r)
    ensures cell.firstLink.Some? && Trim(cell.firstLink.value.text) != [] ==> r == Trim(cell.firstLink.value.text)
    ensures (cell.firstLink.None? || Trim(cell.firstLink.value.text) == []) ==> r == Trim(cell.text)
  {
    var linkText := if cell.firstLink.Some? then Trim(cell.firstLink.value.text) else [];
    if linkText != [] then linkText else Trim(cell.text)
  }

  /** The absolute URL of the title link: present exactly when the link has a
      non-empty `href` (an empty attribute is falsy). */
  function TitleUrl(cell: Cell): (r: Option<string>)
    ensures r.Some? <==> cell.firstLink.Some? && cell.firstLink.value.href.Some? && cell.firstLink.value.href.value != []
    ensures r.Some? ==> r.value == WikipediaOrigin + cell.firstLink.value.href.value
  {
    match cell.firstLink
    case Some(Link(_, Some(href))) => if href != [] then Some(WikipediaOrigin + href) else None
    case _ => None
  }

  /** The director heuristic: the trimmed second-cell text when it is
      non-empty and shorter than the limit. */
  function DirectorCandidate(row: Row): (r: Option<string>)
    ensures r.Some? ==> |row| > 1 && r.value == Trim(row[1].text)
                        && r.value != [] && Utf16Length(r.value) < DirectorLengthLimit
    ensures r.None? && |row| > 1 ==> Trim(row[1].text) == [] || Utf16Length(Trim(row[1].text)) >= DirectorLengthLimit
  {
    if |row| > 1 then
      var second := Trim(CellAt(row, 1).text);
      if second != [] && Utf16Length(second) < DirectorLengthLimit then Some(second) else None
    else None
  }

  /** Every film a job emits carries that job's year and country, a clean
      title, a director only when the job takes one, and no cast, genre or
      release date. */
  predicate StampedBy(job: Job, f: Film) {
    && f.year == Some(job.year)
    && f.country == job.country
    && IsCleanTitle(f.title)
    && (!job.takesDirector ==> f.director.None?)
    && f.castMembers.None? && f.genre.None? && f.releaseDate.None?
  }

  /** The row normaliser: zero or one film from one table row. */
  function NormaliseRow(job: Job, row: Row): (r: Option<Film>)
    ensures r.Some? <==> |row| >= job.minCells && Utf16Length(TitleCandidate(CellAt(row, 0))) > MinTitleLength
    ensures r.Some? ==> StampedBy(job, r.value)
    ensures r.Some? ==> r.value.title == NormaliseTitle(TitleCandidate(CellAt(row, 0)))
    ensures r.Some? ==> r.value.wikipediaUrl == TitleUrl(CellAt(row, 0))
    ensures r.Some? ==> r.value.director == (if job.takesDirector then DirectorCandidate(row) else None)
  {
    if |row| < job.minCells then None
    else
      var titleCell := CellAt(row, 0);
      var candidate := TitleCandidate(titleCell);
      if Utf16Length(candidate) <= MinTitleLength then None
      else
        Some(Film(
          title := NormaliseTitle(candidate),
          year := Some(job.year),
          country := job.country,
          director := if job.takesDirector then DirectorCandidate(row) else None,
          castMembers := None,
          genre := None,
          releaseDate := None,
          wikipediaUrl := TitleUrl(titleCell)))
  }

  /** The zero or one film of a row, as a sequence. */
  function RowFilms(job: Job, row: Row): (films: seq<Film>)
    ensures |films| <= 1
    ensures forall i :: 0 <= i < |films| ==> StampedBy(job, films[i])
  {
    match NormaliseRow(job, row)
    case Some(f) => [f]
    case None => []
  }

  /** The films of one table, in row order. */
  function ExtractTable(job: Job, table: Table): (films: seq<Film>)
    ensures |films| <= |table|
    ensures forall i :: 0 <= i < |films| ==> StampedBy(job, films[i])
    ensures table == [] ==> films == []
  {
    if table == [] then []
    else
      var head := RowFilms(job, table[0]);
      var rest := ExtractTable(job, table[1..]);
      head + rest
  }

  /** The films of one page, table by table and row by row. */
  function ExtractPage(job: Job, page: Page): (films: seq<Film>)
    ensures forall i :: 0 <= i < |films| ==> StampedBy(job, films[i])
    ensures page == [] ==> films == []
  {
    if page == [] then [] else ExtractTable(job, page[0]) + ExtractPage(job, page[1..])
  }

  /** One source job given the outcome of its fetch: a failed fetch makes the
      job fail unless it swallows its own failure, in which case it returns the
      (still empty) film list; a successful fetch yields the extracted films. */
  function RunJob(job: Job, fetched: Result<Page, ()>): (r: Result<seq<Film>, ()>)
    ensures r.Failure? <==> fetched.Failure? && !job.catchesFailure
    ensures fetched.Failure? && job.catchesFailure ==> r == Success([])
    ensures fetched.Success? ==> r.Success? && r.value == ExtractPage(job, fetched.value)
    ensures r.Success? ==> forall i :: 0 <= i < |r.value| ==> StampedBy(job, r.value[i])
  {
    match fetched
    case Failure(_) => if job.catchesFailure then Success([]) else Failure(())
    case Success(page) => Success(ExtractPage(job, page))
  }

  /** Rows are processed in order: the films of two consecutive row runs are
      the films of the first followed by those of the second. */
  lemma {:induction false} ExtractTableAppend(job: Job, a: Table, b: Table)
    ensures ExtractTable(job, a + b) == ExtractTable(job, a) + ExtractTable(job, b)
    decreases |a|
  {
    if a == [] {
      assert a + b == b;
    } else {
      assert (a + b)[0] == a[0] && (a + b)[1..] == a[1..] + b;
      ExtractTableAppend(job, a[1..], b);
      Reassociate(RowFilms(job, a[0]), ExtractTable(job, a[1..]), ExtractTable(job, b));
    }
  }

  /** Tables are processed in document order. */
  lemma {:induction false} ExtractPageAppend(job: Job, a: Page, b: Page)
    ensures ExtractPage(job, a + b) == ExtractPage(job, a) + ExtractPage(job, b)
    decreases |a|
  {
    if a == [] {
      assert a + b == b;
    } else {
      assert (a + b)[0] == a[0] && (a + b)[1..] == a[1..] + b;
      ExtractPageAppend(job, a[1..], b);
      Reassociate(ExtractTable(job, a[0]), ExtractPage(job, a[1..]), ExtractPage(job, b));
    }
  }

  /** A page holding one table with one row yields exactly that row's
      normalised film, if any. */
  lemma ExtractSingleRow(job: Job, row: Row)
    ensures ExtractPage(job, [[row]]) == RowFilms(job, row)
  {
    assert [row][1..] == [];
    assert [[row]][1..] == [];
    assert RowFilms(job, row) + [] == RowFilms(job, row);
  }

  /** A first cell with no link and already-trimmed text offers that text as
      the title candidate. */
  lemma PlainTitleCandidate(row: Row)
    requires |row| >= 1 && row[0].firstLink.None? && IsTrimmed(row[0].text)
    ensures TitleCandidate(CellAt(row, 0)) == row[0].text
  {
    TrimOfTrimmed(row[0].text);
  }

  /** The sample titles are plain ASCII, one code unit per character. The
      title is a parameter fixed by the `requires` so that the lemmas below
      can pass it the text of an arbitrary row's first cell. */
  lemma SampleTitleLength(s: string)
    requires s == "AB" || s == "ABC"
    ensures Utf16Length(s) == |s|
  {
  }

  /** The title candidate `"AB"` is two code units long. */
  lemma TwoUnitCandidate(row: Row)
    requires |row| >= 1 && row[0] == Cell("AB", None)
    ensures Utf16Length(TitleCandidate(CellAt(row, 0))) == 2
  {
    PlainTitleCandidate(row);
    SampleTitleLength(row[0].text);
  }

  /** The title candidate `"ABC"` is three code units long. */
  lemma ThreeUnitCandidate(row: Row)
    requires |row| >= 1 && row[0] == Cell("ABC", None)
    ensures Utf16Length(TitleCandidate(CellAt(row, 0))) == 3
  {
    PlainTitleCandidate(row);
    SampleTitleLength(row[0].text);
  }

  /** A row whose title is two characters long yields no film. */
  lemma TwoCharacterTitleRejected(job: Job, row: Row)
    requires |row| >= 1 && row[0] == Cell("AB", None)
    ensures NormaliseRow(job, row).None?
  {
    TwoUnitCandidate(row);
  }

  /** A row whose title is three characters long yields a film once it has
      the cells the job needs. */
  lemma ThreeCharacterTitleAccepted(job: Job, row: Row)
    requires |row| >= job.minCells && |row| >= 1 && row[0] == Cell("ABC", None)
    ensures NormaliseRow(job, row).Some?
  {
    ThreeUnitCandidate(row);
  }
}

=== FILE: scraper.dfy ===
/** The orchestrator `scrapeFilms`: the three source jobs run in order, each
    inside its own failure boundary; their films are concatenated, then
    de-duplicated by `(title, year)`, and the result reports the films, the
    per-job error messages and the film count. An exception escaping the
    outer boundary yields an unsuccessful result instead. */
module Scraper {
  import opened Wrappers
  import opened Types
  import opened Extract
  import opened Deduplication
  import opened Sequences

  /** American films of 2023: rows need two cells; the second one may give
      the director. */
  const American2023: Job := Job(
    url := "https://en.wikipedia.org/wiki/List_of_American_films_of_2023",
    year := 2023, country := "United States", minCells := 2,
    takesDirector := true, catchesFailure := false,
    errorMessage := "Failed to scrape American films 2023")

  /** American films of 2022: rows need two cells; no director. */
  const American2022: Job := Job(
    url := "https://en.wikipedia.org/wiki/List_of_American_films_of_2022",
    year := 2022, country := "United States", minCells := 2,
    takesDirector := false, catchesFailure := false,
    errorMessage := "Failed to scrape American films 2022")

  /** British films of 2023: one cell suffices; no director; the job catches
      its own fetch and parse failures, so the model never records its error
      message (only a throwing console call could reach it). */
  const British2023: Job := Job(
    url := "https://en.wikipedia.org/wiki/List_of_British_films_of_2023",
    year := 2023, country := "United Kingdom", minCells := 1,
    takesDirector := false, catchesFailure := true,
    errorMessage := "Failed to scrape British films 2023")

  /** The jobs in the order `scrapeFilms` runs them. */
  const Jobs: seq<Job> := [American2023, American2022, British2023]

  /** The network: what fetching each URL yields (a parsed page, or a failure
      of the request). */
  type Fetcher = string -> Result<Page, ()>

  /** The two lists the orchestrator fills while the jobs run. */
  datatype Accumulator = Accumulator(films: seq<Film>, errors: seq<string>)

  /** A value thrown past the outer `try`. */
  datatype Thrown = ErrorObject(message: string) | OtherValue

  /** An exception escaping the job boundaries, once the first `afterJobs`
      jobs have been accounted for (any value from the number of jobs up
      means it escaped while de-duplicating or building the result). */
  datatype Escape = Escape(afterJobs: nat, thrown: Thrown)

  /** `error instanceof Error ? error.message : 'Unknown error'`. */
  function ThrownMessage(t: Thrown): (m: string)
    ensures t.ErrorObject? ==> m == t.message
    ensures t.OtherValue? ==> m == "Unknown error"
  {
    match t
    case ErrorObject(message) => message
    case OtherValue => "Unknown error"
  }

  /** The lists after one run followed by another. */
  function Combine(x: Accumulator, y: Accumulator): Accumulator {
    Accumulator(x.films + y.films, x.errors + y.errors)
  }

  /** What one job adds inside its `try`/`catch`: its films when it returns,
      exactly its error message when it throws. */
  function Contribution(job: Job, fetch: Fetcher): (c: Accumulator)
    ensures c.errors == [] <==> RunJob(job, fetch(job.url)).Success?
    ensures c.errors != [] ==> c.errors == [job.errorMessage] && c.films == []
    ensures c.errors == [] ==> c.films == RunJob(job, fetch(job.url)).value
    ensures c.errors == if fetch(job.url).Failure? && !job.catchesFailure then [job.errorMessage] else []
  {
    match RunJob(job, fetch(job.url))
    case Success(films) => Accumulator(films, [])
    case Failure(_) => Accumulator([], [job.errorMessage])
  }

  /** The films a job contributes to the accumulator: its extracted films when
      its fetch succeeds, none when it fails. */
  function JobFilms(job: Job, fetch: Fetcher): (films: seq<Film>)
    ensures fetch(job.url).Failure? ==> films == []
    ensures fetch(job.url).Success? ==> films == ExtractPage(job, fetch(job.url).value)
    ensures forall i :: 0 <= i < |films| ==> StampedBy(job, films[i])
  {
    Contribution(job, fetch).films
  }

  /** Runs the jobs in order, each appending its contribution to the two
      lists; there are never more errors than jobs. */
  function Accumulate(jobs: seq<Job>, fetch: Fetcher): (acc: Accumulator)
    ensures |acc.errors| <= |jobs|
    decreases |jobs|
  {
    if jobs == [] then Accumulator([], [])
    else Combine(Contribution(jobs[0], fetch), Accumulate(jobs[1..], fetch))
  }

  /** Every accumulated film carries the metadata of one of the jobs, and
      every accumulated error is the message of a job that does not catch its
      own failures. */
  lemma {:induction false} AccumulateProvenance(jobs: seq<Job>, fetch: Fetcher)
    ensures forall f :: f in Accumulate(jobs, fetch).films ==> exists job :: job in jobs && StampedBy(job, f)
    ensures forall e :: e in Accumulate(jobs, fetch).errors ==> exists job :: job in jobs && !job.catchesFailure && e == job.errorMessage
    decreases |jobs|
  {
    if jobs != [] {
      AccumulateProvenance(jobs[1..], fetch);
      assert forall job :: job in jobs[1..] ==> job in jobs;
      assert jobs[0] in jobs;
    }
  }

  /** The orchestrator over an arbitrary job list. Without an escape the
      result is successful, holds the de-duplicated films and the job errors.
      With an escape it is unsuccessful, holds the films accumulated so far
      without de-duplication, and the errors so far followed by the escaped
      message. Either way `totalScraped` is the number of films returned. */
  function ScrapeAll(jobs: seq<Job>, fetch: Fetcher, escape: Option<Escape>): (r: ScrapingResult)
    ensures r.totalScraped == |r.films|
    ensures r.success <==> escape.None?
    ensures r.success ==> UniqueKeys(r.films) && Keys(r.films) == Keys(Accumulate(jobs, fetch).films)
    ensures r.success ==> r.errors == Accumulate(jobs, fetch).errors
    ensures r.success ==> r.films == Dedup(Accumulate(jobs, fetch).films)
    ensures !r.success ==> |r.errors| >= 1 && r.errors[|r.errors| - 1] == ThrownMessage(escape.value.thrown)
    ensures !r.success ==>
      (exists d :: 0 <= d <= |jobs|
         && r.films == Accumulate(jobs[..d], fetch).films
         && r.errors == Accumulate(jobs[..d], fetch).errors + [ThrownMessage(escape.value.thrown)])
  {
    match escape
    case None =>
      var acc := Accumulate(jobs, fetch);
      var unique := Dedup(acc.films);
      ScrapingResult(success := true, films := unique, errors := acc.errors, totalScraped := |unique|)
    case Some(Escape(afterJobs, thrown)) =>
      var done := if afterJobs < |jobs| then afterJobs else |jobs|;
      var acc := Accumulate(jobs[..done], fetch);
      ScrapingResult(success := false, films := acc.films, errors := acc.errors + [ThrownMessage(thrown)],
                     totalScraped := |acc.films|)
  }

  /** `scrapeFilms`: the orchestrator over the three source jobs. */
  function ScrapeFilms(fetch: Fetcher, escape: Option<Escape>): (r: ScrapingResult)
    ensures r.totalScraped == |r.films|
    ensures r.success <==> escape.None?
    ensures r.success ==> UniqueKeys(r.films)
    ensures forall e :: e in r.errors && escape.None? ==> e == American2023.errorMessage || e == American2022.errorMessage
  {
    AccumulateProvenance(Jobs, fetch);
    ScrapeAll(Jobs, fetch, escape)
  }

  /** Running two job lists one after the other accumulates the films and
      errors of the first followed by those of the second. */
  lemma {:induction false} AccumulateAppend(a: seq<Job>, b: seq<Job>, fetch: Fetcher)
    ensures Accumulate(a + b, fetch) == Combine(Accumulate(a, fetch), Accumulate(b, fetch))
    decreases |a|
  {
    if a == [] {
      assert a + b == b;
    } else {
      assert (a + b)[0] == a[0];
      assert (a + b)[1..] == a[1..] + b;
      AccumulateAppend(a[1..], b, fetch);
      var c, x, y := Contribution(a[0], fetch), Accumulate(a[1..], fetch), Accumulate(b, fetch);
      Reassociate(c.films, x.films, y.films);
      Reassociate(c.errors, x.errors, y.errors);
    }
  }

  /** One job on its own accumulates exactly its contribution. */
  lemma AccumulateOne(job: Job, fetch: Fetcher)
    ensures Accumulate([job], fetch) == Contribution(job, fetch)
  {
    assert [job][1..] == [];
    var c := Contribution(job, fetch);
    assert c.films + [] == c.films && c.errors + [] == c.errors;
  }

  /** Failure isolation: a failing job between two job lists adds exactly its
      error message and no film, and the jobs before and after it contribute
      what they would have contributed anyway. */
  lemma JobFailureIsolated(a: seq<Job>, job: Job, b: seq<Job>, fetch: Fetcher)
    requires RunJob(job, fetch(job.url)).Failure?
    ensures Accumulate(a + [job] + b, fetch)
         == Accumulator(Accumulate(a, fetch).films + Accumulate(b, fetch).films,
                        Accumulate(a, fetch).errors + [job.errorMessage] + Accumulate(b, fetch).errors)
  {
    AccumulateAppend(a + [job], b, fetch);
    AccumulateAppend(a, [job], fetch);
    AccumulateOne(job, fetch);
    var x := Accumulate(a, fetch);
    assert x.films + [] == x.films;
  }

  /** A succeeding job between two job lists appends its films in place and
      adds no error. */
  lemma JobSuccessAppended(a: seq<Job>, job: Job, b: seq<Job>, fetch: Fetcher)
    requires RunJob(job, fetch(job.url)).Success?
    ensures Accumulate(a + [job] + b, fetch)
         == Accumulator(Accumulate(a, fetch).films + RunJob(job, fetch(job.url)).value + Accumulate(b, fetch).films,
                        Accumulate(a, fetch).errors + Accumulate(b, fetch).errors)
  {
    AccumulateAppend(a + [job], b, fetch);
    AccumulateAppend(a, [job], fetch);
    AccumulateOne(job, fetch);
    var x := Accumulate(a, fetch);
    assert x.errors + [] == x.errors;
  }

  /** Two jobs accumulate to the combination of their contributions. */
  lemma AccumulatePair(j1: Job, j2: Job, fetch: Fetcher)
    ensures Accumulate([j1, j2], fetch) == Combine(Contribution(j1, fetch), Contribution(j2, fetch))
  {
    assert [j1, j2][1..] == [j2];
    AccumulateOne(j2, fetch);
  }

  /** Three jobs accumulate to the combination of their contributions. */
  lemma AccumulateThree(j1: Job, j2: Job, j3: Job, fetch: Fetcher)
    ensures Accumulate([j1, j2, j3], fetch)
         == Combine(Contribution(j1, fetch), Combine(Contribution(j2, fetch), Contribution(j3, fetch)))
  {
    assert [j1, j2, j3][1..] == [j2, j3];
    AccumulatePair(j2, j3, fetch);
  }

  /** The films of three jobs are their job films in job order. */
  lemma AccumulateThreeFilms(j1: Job, j2: Job, j3: Job, fetch: Fetcher)
    ensures Accumulate([j1, j2, j3], fetch).films
         == JobFilms(j1, fetch) + JobFilms(j2, fetch) + JobFilms(j3, fetch)
  {
    AccumulateThree(j1, j2, j3, fetch);
    Reassociate(JobFilms(j1, fetch), JobFilms(j2, fetch), JobFilms(j3, fetch));
  }

  /** The errors of three jobs are their contributed errors in job order. */
  lemma AccumulateThreeErrors(j1: Job, j2: Job, j3: Job, fetch: Fetcher)
    ensures Accumulate([j1, j2, j3], fetch).errors
         == Contribution(j1, fetch).errors + Contribution(j2, fetch).errors + Contribution(j3, fetch).errors
  {
    AccumulateThree(j1, j2, j3, fetch);
    Reassociate(Contribution(j1, fetch).errors, Contribution(j2, fetch).errors, Contribution(j3, fetch).errors);
  }

  /** The three fixed jobs: the films are the three jobs' films in order, and
      the errors are the messages of the American jobs whose fetch failed
      (the British job never reports one). */
  lemma AccumulateJobs(fetch: Fetcher)
    ensures Accumulate(Jobs, fetch).films
         == JobFilms(American2023, fetch) + JobFilms(American2022, fetch) + JobFilms(British2023, fetch)
    ensures Accumulate(Jobs, fetch).errors
         == (if fetch(American2023.url).Failure? then [American2023.errorMessage] else [])
          + (if fetch(American2022.url).Failure? then [American2022.errorMessage] else [])
  {
    AccumulateThreeFilms(American2023, American2022, British2023, fetch);
    AccumulateThreeErrors(American2023, American2022, British2023, fetch);
    var e := Contribution(American2023, fetch).errors + Contribution(American2022, fetch).errors;
    assert e + [] == e;
  }

  /** An uninterrupted run succeeds whatever the network does: it reports
      the de-duplicated films of the jobs that fetched their page, one error
      per failed American job, and their count. */
  lemma ScrapeFilmsOutcome(fetch: Fetcher)
    ensures var r := ScrapeFilms(fetch, None);
      && r.success
      && r.films == Dedup(JobFilms(American2023, fetch) + JobFilms(American2022, fetch) + JobFilms(British2023, fetch))
      && r.errors == (if fetch(American2023.url).Failure? then [American2023.errorMessage] else [])
                   + (if fetch(American2022.url).Failure? then [American2022.errorMessage] else [])
      && r.totalScraped == |r.films|
  {
    AccumulateJobs(fetch);
  }

  /** The count reported by an uninterrupted run is the number of distinct
      `(title, year)` keys among all films the jobs produced. */
  lemma ScrapeAllCount(jobs: seq<Job>, fetch: Fetcher)
    ensures ScrapeAll(jobs, fetch, None).totalScraped == |Keys(Accumulate(jobs, fetch).films)|
  {
    DedupLength(Accumulate(jobs, fetch).films);
  }

  /** The jobs of a prefix accumulate a prefix of the films and a prefix of
      the errors of the whole list. */
  lemma PrefixAccumulates(jobs: seq<Job>, done: nat, fetch: Fetcher)
    requires done <= |jobs|
    ensures Accumulate(jobs[..done], fetch).films <= Accumulate(jobs, fetch).films
    ensures Accumulate(jobs[..done], fetch).errors <= Accumulate(jobs, fetch).errors
  {
    assert jobs == jobs[..done] + jobs[done..];
    AccumulateAppend(jobs[..done], jobs[done..], fetch);
  }

  /** An escaped exception keeps the work done so far: the films returned are
      a prefix of the films a full run accumulates (not de-duplicated), and the
      errors before the escaped message are a prefix of a full run's errors. */
  lemma EscapeKeepsProgress(jobs: seq<Job>, fetch: Fetcher, e: Escape)
    ensures var r := ScrapeAll(jobs, fetch, Some(e));
            var full := Accumulate(jobs, fetch);
      && !r.success
      && r.totalScraped == |r.films|
      && r.films <= full.films
      && r.errors[..|r.errors| - 1] <= full.errors
      && r.errors[|r.errors| - 1] == ThrownMessage(e.thrown)
  {
    var done := if e.afterJobs < |jobs| then e.afterJobs else |jobs|;
    PrefixAccumulates(jobs, done, fetch);
    var acc := Accumulate(jobs[..done], fetch);
    assert (acc.errors + [ThrownMessage(e.thrown)])[..|acc.errors|] == acc.errors;
  }

  /** An exception thrown before the first job starts (the opening log call
      already sits inside the outer `try`) yields a failed result with no
      films and the thrown message as its only error. */
  lemma EscapeBeforeFirstJob(jobs: seq<Job>, fetch: Fetcher, thrown: Thrown)
    ensures ScrapeAll(jobs, fetch, Some(Escape(0, thrown)))
            == ScrapingResult(false, [], [ThrownMessage(thrown)], 0)
  {
    assert jobs[..0] == [];
  }

  /** Two one-film lists around an empty one concatenate to the pair. Stated
      apart from its single use below: with the jobs' film facts in scope the
      solver's sequence reasoning for it is much costlier. */
  lemma PairWithGap(first: Film, second: Film)
    ensures [first] + [] + [second] == [first, second]
  {
  }

  /** Keep-first across jobs: when the American 2023 page and the British page
      each hold one row producing films with the same title (same year 2023),
      only the American film, which comes first and may carry a director,
      survives. */
  lemma KeepFirstAcrossJobs(fetch: Fetcher, american: Row, british: Row, first: Film, second: Film)
    requires fetch(American2023.url) == Success([[american]])
    requires fetch(American2022.url).Failure?
    requires fetch(British2023.url) == Success([[british]])
    requires NormaliseRow(American2023, american) == Some(first)
    requires NormaliseRow(British2023, british) == Some(second)
    requires first.title == second.title
    ensures ScrapeFilms(fetch, None).films == [first]
    ensures ScrapeFilms(fetch, None).errors == [American2022.errorMessage]
  {
    ExtractSingleRow(American2023, american);
    ExtractSingleRow(British2023, british);
    PairWithGap(first, second);
    ScrapeFilmsOutcome(fetch);
    DedupPair(first, second);
  }
}

=== FILE: sequences.dfy ===
/** Small facts about sequences shared by the modules that concatenate film
    lists. */
module Sequences {

  /** Concatenation regrouped to the left. */
  lemma Reassociate<T>(a: seq<T>, b: seq<T>, c: seq<T>)
    ensures a + (b + c) == a + b + c
  {
  }
}

=== FILE: text.dfy ===
/** The string operations the scraper applies to cell text: ECMAScript
    `String.prototype.trim`, the regular-expression replacement
    `replace(/[^\w\s]/gi, '')` and the UTF-16 `length` of a string. */
module Text {

  /** `\w` in an ECMAScript regular expression without the `u` flag: ASCII
      letters, digits and underscore. The `i` flag does not widen it, because
      case folding in non-Unicode mode never maps a non-ASCII character onto an
      ASCII one. */
  predicate IsWordChar(c: char) {
    ('A' <= c <= 'Z') || ('a' <= c <= 'z') || ('0' <= c <= '9') || c == '_'
  }

  /** ECMAScript WhiteSpace or LineTerminator: the characters `\s` matches and
      the characters `trim` removes. */
  predicate IsSpace(c: char) {
    var n := c as int;
    n == 0x09 || n == 0x0A || n == 0x0B || n == 0x0C || n == 0x0D || n == 0x20
    || n == 0xA0 || n == 0x1680 || (0x2000 <= n <= 0x200A) || n == 0x2028
    || n == 0x2029 || n == 0x202F || n == 0x205F || n == 0x3000 || n == 0xFEFF
  }

  /** A character the title clean-up keeps: a word character or whitespace. */
  predicate IsTitleChar(c: char) {
    IsWordChar(c) || IsSpace(c)
  }

  /** The number of whitespace characters `s` starts with. */
  function LeadingSpaces(s: string): (n: nat)
    ensures n <= |s|
    ensures forall i :: 0 <= i < n ==> IsSpace(s[i])
    ensures n == |s| || !IsSpace(s[n])
  {
    if s != [] && IsSpace(s[0]) then 1 + LeadingSpaces(s[1..]) else 0
  }

  /** The number of whitespace characters `s` ends with. */
  function TrailingSpaces(s: string): (n: nat)
    ensures n <= |s|
    ensures forall i :: |s| - n <= i < |s| ==> IsSpace(s[i])
    ensures n == |s| || !IsSpace(s[|s| - n - 1])
  {
    if s != [] && IsSpace(s[|s| - 1]) then 1 + TrailingSpaces(s[..|s| - 1]) else 0
  }

  /** Removes leading whitespace. */
  function TrimStart(s: string): (r: string)
    ensures |r| <= |s| && r == s[|s| - |r|..]
    ensures forall i :: 0 <= i < |s| - |r| ==> IsSpace(s[i])
    ensures r == [] || !IsSpace(r[0])
  {
    s[LeadingSpaces(s)..]
  }

  /** Removes trailing whitespace. */
  function TrimEnd(s: string): (r: string)
    ensures |r| <= |s| && r == s[..|r|]
    ensures forall i :: |r| <= i < |s| ==> IsSpace(s[i])
    ensures r == [] || !IsSpace(r[|r| - 1])
  {
    s[..|s| - TrailingSpaces(s)]
  }

  /** Neither end of `s` is whitespace. */
  predicate IsTrimmed(s: string) {
    s == [] || (!IsSpace(s[0]) && !IsSpace(s[|s| - 1]))
  }

  /** `String.prototype.trim`: whitespace removed from both ends; the result
      is no longer than `s`, and is empty exactly when `s` is all whitespace. */
  function Trim(s: string): (r: string)
    ensures IsTrimmed(r)
    ensures |r| <= |s|
    ensures r == [] <==> forall i :: 0 <= i < |s| ==> IsSpace(s[i])
  {
    TrimEnd(TrimStart(s))
  }

  /** The trimmed string is the slice of `s` that starts after its leading
      whitespace. */
  lemma TrimIsSlice(s: string)
    ensures var r, lo := Trim(s), |s| - |TrimStart(s)|;
            lo + |r| <= |s| && r == s[lo..lo + |r|]
  {
    var t := TrimStart(s);
    var r := TrimEnd(t);
    var lo := |s| - |t|;
    assert Trim(s) == r;
    forall j | 0 <= j < |r|
      ensures r[j] == s[lo + j]
    {
      assert r[j] == t[j];
    }
    assert r == s[lo..lo + |r|];
  }

  /** Everything `trim` removes, before and after the kept slice, is
      whitespace. */
  lemma TrimRemovesOnlySpace(s: string)
    ensures var r, lo := Trim(s), |s| - |TrimStart(s)|;
            && (forall i :: 0 <= i < lo ==> IsSpace(s[i]))
            && (forall i :: lo + |r| <= i < |s| ==> IsSpace(s[i]))
  {
    var t := TrimStart(s);
    var r := TrimEnd(t);
    var lo := |s| - |t|;
    assert Trim(s) == r;
    forall i | lo + |r| <= i < |s|
      ensures IsSpace(s[i])
    {
      assert s[i] == t[i - lo];
    }
  }

  /** Trimming keeps only characters of its input, so a string of title
      characters stays one. */
  lemma TrimKeepsTitleChars(s: string)
    requires forall i :: 0 <= i < |s| ==> IsTitleChar(s[i])
    ensures forall i :: 0 <= i < |Trim(s)| ==> IsTitleChar(Trim(s)[i])
  {
    TrimIsSlice(s);
    var r, lo := Trim(s), |s| - |TrimStart(s)|;
    forall i | 0 <= i < |r|
      ensures IsTitleChar(r[i])
    {
      assert r[i] == s[lo + i];
    }
  }

  /** `s.replace(/[^\w\s]/gi, '')`: deletes every character that is neither a
      word character nor whitespace, keeping the rest in order. */
  function StripPunctuation(s: string): (r: string)
    ensures |r| <= |s|
    ensures forall i :: 0 <= i < |r| ==> IsTitleChar(r[i])
    ensures (forall i :: 0 <= i < |s| ==> IsTitleChar(s[i])) ==> r == s
  {
    if s == [] then []
    else (if IsTitleChar(s[0]) then [s[0]] else []) + StripPunctuation(s[1..])
  }

  /** The replacement deletes rather than rewrites: every title character
      occurs as often in the result as in `s`, and every other character
      not at all. */
  lemma {:induction false} StripPunctuationDeletes(s: string)
    ensures forall c :: multiset(StripPunctuation(s))[c] == if IsTitleChar(c) then multiset(s)[c] else 0
    decreases |s|
  {
    if s != [] {
      assert s == [s[0]] + s[1..];
      StripPunctuationDeletes(s[1..]);
    }
  }

  /** A cleaned title: only word and whitespace characters, with a word
      character at each end. */
  predicate IsCleanTitle(s: string) {
    && (forall i :: 0 <= i < |s| ==> IsTitleChar(s[i]))
    && (s == [] || (IsWordChar(s[0]) && IsWordChar(s[|s| - 1])))
  }

  /** `title.replace(/[^\w\s]/gi, '').trim()`. */
  function NormaliseTitle(s: string): (r: string)
    ensures IsCleanTitle(r)
    ensures |r| <= |s|
  {
    var stripped := StripPunctuation(s);
    TrimKeepsTitleChars(stripped);
    Trim(stripped)
  }

  /** The JavaScript `length` of a string: its number of UTF-16 code units, so
      a character outside the Basic Multilingual Plane counts twice. */
  function Utf16Length(s: string): (n: nat)
    ensures |s| <= n <= 2 * |s|
    ensures n == |s| <==> forall i :: 0 <= i < |s| ==> s[i] as int < 0x1_0000
    ensures |s| == 1 ==> n == if s[0] as int < 0x1_0000 then 1 else 2
  {
    if s == [] then 0
    else (if s[0] as int < 0x1_0000 then 1 else 2) + Utf16Length(s[1..])
  }

  /** The UTF-16 length of a concatenation is the sum of the parts' lengths,
      so together with the one-character case it fixes the length of every
      string. */
  lemma {:induction false} Utf16LengthAppend(a: string, b: string)
    ensures Utf16Length(a + b) == Utf16Length(a) + Utf16Length(b)
    decreases |a|
  {
    if a != [] {
      assert (a + b)[0] == a[0] && (a + b)[1..] == a[1..] + b;
      Utf16LengthAppend(a[1..], b);
    } else {
      assert a + b == b;
    }
  }

  /** Deleting punctuation distributes over concatenation, so the kept
      characters appear in their original order. */
  lemma {:induction false} StripPunctuationAppend(a: string, b: string)
    ensures StripPunctuation(a + b) == StripPunctuation(a) + StripPunctuation(b)
    decreases |a|
  {
    if a == [] {
      assert a + b == b;
    } else {
      assert (a + b)[1..] == a[1..] + b;
      StripPunctuationAppend(a[1..], b);
    }
  }

  /** Trimming a trimmed string changes nothing. */
  lemma TrimOfTrimmed(s: string)
    requires IsTrimmed(s)
    ensures Trim(s) == s
  {
  }

  /** Trimming twice equals trimming once. */
  lemma TrimIdempotent(s: string)
    ensures Trim(Trim(s)) == Trim(s)
  {
    TrimOfTrimmed(Trim(s));
  }

  /** A clean title is a fixed point of the normalisation. */
  lemma NormaliseCleanTitle(s: string)
    requires IsCleanTitle(s)
    ensures NormaliseTitle(s) == s
  {
    assert StripPunctuation(s) == s;
    TrimOfTrimmed(s);
  }

  /** Normalising a title twice equals normalising it once. */
  lemma NormaliseTitleIdempotent(s: string)
    ensures NormaliseTitle(NormaliseTitle(s)) == NormaliseTitle(s)
  {
    NormaliseCleanTitle(NormaliseTitle(s));
  }

  /** When the punctuation-free text already has no surrounding whitespace,
      it is the normalised title. */
  lemma NormaliseTrimmedStrip(s: string)
    requires IsTrimmed(StripPunctuation(s))
    ensures NormaliseTitle(s) == StripPunctuation(s)
  {
    TrimOfTrimmed(StripPunctuation(s));
  }

  /** Deleting punctuation from `"Oppenheimer: Part 1!"`, taken in pieces:
      the words survive whole, the colon and the exclamation mark vanish.
      The pieces are parameters fixed by the `requires` so that the verifier
      works on four short literals rather than on one long one. */
  lemma StripPunctuationExample(a: string, b: string, c: string, d: string)
    requires a == "Oppenheimer" && b == ":" && c == " Part 1" && d == "!"
    ensures StripPunctuation(a + b + c + d) == a + c
  {
    ExampleWordsKept(a, c);
    ExamplePunctuationDropped(b, d);
    StripPunctuationAppend(a, b);
    StripPunctuationAppend(a + b, c);
    StripPunctuationAppend(a + b + c, d);
    assert a + [] == a;
    assert (a + c) + [] == a + c;
  }

  /** The words of the example title consist of title characters only. */
  lemma ExampleWordsKept(a: string, c: string)
    requires a == "Oppenheimer" && c == " Part 1"
    ensures StripPunctuation(a) == a && StripPunctuation(c) == c
  {
    assert forall i :: 0 <= i < |c| ==> IsTitleChar(c[i]);
    assert forall i :: 0 <= i < |a| ==> IsTitleChar(a[i]);
  }

  /** The punctuation of the example title is deleted. */
  lemma ExamplePunctuationDropped(b: string, d: string)
    requires b == ":" && d == "!"
    ensures StripPunctuation(b) == [] && StripPunctuation(d) == []
  {
    assert !IsTitleChar(b[0]) && !IsTitleChar(d[0]);
  }

  /** `"Oppenheimer: Part 1!"` normalises to `"Oppenheimer Part 1"`: colon and
      exclamation mark are deleted and the spacing between words is kept.
      The pieces are parameters for the same reason as above. */
  lemma NormaliseTitleExample(a: string, b: string, c: string, d: string)
    requires a == "Oppenheimer" && b == ":" && c == " Part 1" && d == "!"
    ensures NormaliseTitle(a + b + c + d) == a + c
  {
    StripPunctuationExample(a, b, c, d);
    assert IsTrimmed(a + c) by {
      assert (a + c)[0] == a[0] && (a + c)[|a + c| - 1] == c[|c| - 1];
    }
    NormaliseTrimmedStrip(a + b + c + d);
  }

  /** A candidate long enough to pass the length filter can still clean up to
      the empty title. */
  lemma NormaliseTitleCanBeEmpty()
    ensures Utf16Length("!?!") > 2 && NormaliseTitle("!?!") == []
  {
    var s := "!?!";
    assert !IsTitleChar(s[0]) && !IsTitleChar(s[1]) && !IsTitleChar(s[2]);
    assert StripPunctuation(s[2..]) == [];
    assert StripPunctuation(s[1..]) == [];
  }
}

=== FILE: types.dfy ===
/** The records the scraper produces. */
module Types {
  import opened Wrappers

  /** One film. `title` and `country` are always present; every other field
      may be absent (`undefined`). */
  datatype Film = Film(
    title: string,
    year: Option<int>,
    country: string,
    director: Option<string>,
    castMembers: Option<seq<string>>,
    genre: Option<string>,
    releaseDate: Option<string>,
    wikipediaUrl: Option<string>
  )

  /** The outcome of one scraping run; `totalScraped` reports the number of
      films returned. */
  datatype ScrapingResult = ScrapingResult(
    success: bool,
    films: seq<Film>,
    errors: seq<string>,
    totalScraped: nat
  )
}

=== FILE: wrappers.dfy ===
/** An optional value (JavaScript's `undefined` fields) and a
    success-or-failure outcome (a call that may throw). */
module Wrappers {

  /** A value that may be absent. */
  datatype Option<+T> = None | Some(value: T)

  /** The outcome of a computation that either returns a value or throws. */
  datatype Result<+R, +E> = Success(value: R) | Failure(error: E)
}
